=== FILE: README.md ===
# enpasstokeepass — record normalisation core in Dafny

`enpasstokeepass.py` reads an Enpass JSON export and adds every item to an
existing KeePass database. The decisions it makes per item are modelled
here as pure functions over immutable datatypes:

- **Control-character stripping** (`remove_control_characters`), with the
  Unicode category lookup as an abstract predicate `isControl`.
- **Reserved-key lookup** (`is_reserved_word`): a case-insensitive search in
  pykeepass's reserved-key list that answers with the list's own spelling.
  The list, and `str.lower`, are parameters.
- **Tag directory and tags**: folder uuid → title for the top-level,
  non-"Root" folder nodes, and the per-item lookup of folder references.
- **Category resolution**: `template_type` → (category, subcategory,
  default flag) → a one- or two-level KeePass group path. `uuid.UUID`
  parsing is an abstract predicate `isUuid`.
- **Field classification**: the loop over an item's fields that fills
  `key_fields` (username/email/password/url, first non-empty value of each
  type) and `value_fields` (custom properties, relabelled through the
  `totp`→`otp`, empty-label, duplicate, reserved-key and key-category rules,
  values stripped, a still-taken label dropped). `value_fields` is an
  insertion-ordered dictionary, modelled as a sequence of properties with
  distinct keys, because its order is the order properties are written.
- **Group creation and title assignment** over an abstract store: a map from
  group path to the set of entry titles already in that group.
- **Entry assembly and the item loop**: each item yields a created entry
  descriptor (the `add_entry` arguments plus the planned property writes),
  or a skip because the title is empty or still taken after the uuid suffix.

The collaborators are bundled in `Config.Env`. Two facts about them are
stated as predicates and used only as hypotheses of the properties that
need them: `str.lower` keeps an underscore (`LowerKeepsUnderscore`), and no
reserved key lowers to a string with an underscore
(`ReservedKeysHaveNoUnderscore`). Together they are `WellBehaved`.

Behaviour of the code worth noting, all of it modelled as written:

- The UUID test is applied to the whole `template_type`, not to the text
  before the first dot.
- For a `.default` template type the subcategory is still the second
  dot-separated piece (for example "default"); it is only left out of the
  group path.
- Title collisions are checked against the titles already in the KeePass
  group, which includes entries that were there before the run, so the
  store is an input of the conversion.
- The e-mail key attribute is extracted but never passed to `add_entry`, so
  the first non-empty e-mail field reaches neither the entry nor its custom
  properties.

With Python's real `uuid.UUID` a string containing a dot never parses, so
in practice only the "no dot" condition selects the Miscellaneous fallback.
The model keeps the test as written, with `isUuid` abstract.

## Model

| member | source | states |
|---|---|---|
| Sanitize.StripControl | enpasstokeepass.py:101-116 | the result has no control character, is a subsequence of the input, and keeps every occurrence of every non-control character |
| Sanitize.StripControlKeepsClean | enpasstokeepass.py:116 | a string without control characters is returned unchanged |
| Sanitize.StripControlIdempotent | enpasstokeepass.py:116 | stripping twice equals stripping once |
| ReservedWords.FindReserved | enpasstokeepass.py:134-139 | the lookup succeeds iff some reserved key lowers to `lower(key)`, and then returns the first such key in list order |
| ReservedWords.IsReservedWord | enpasstokeepass.py:123-139 | `is_reserved_word` is the lookup of `FindReserved` against the configured list and `str.lower` (contract on `FindReserved`) |
| ReservedWords.UnderscoredKeyIsNotReserved | enpasstokeepass.py:134-139 | a key whose lower-case form has an underscore is not reserved when no reserved key lowers to one with an underscore |
| Strings.Split | enpasstokeepass.py:311 | `str.split`: at least one piece, two or more exactly when the separator occurs, no piece contains it, and joining the pieces gives the input back |
| Strings.SplitJoin | enpasstokeepass.py:311 | splitting the join of separator-free pieces gives the pieces back |
| Tags.TagDirectoryContents | enpasstokeepass.py:246-264 | the directory's uuids are exactly those of folder nodes with a uuid, a title other than "Root" and a missing or empty parent, each mapped to the title of the last such node |
| Tags.TagDirectory | enpasstokeepass.py:246-264 | the directory holds only tag uuids; its full contents are stated by `Tags.TagDirectoryContents` |
| Tags.ResolveTagsContents | enpasstokeepass.py:336-340 | an item's tags are exactly the directory names of its known folder references; unknown references contribute nothing |
| Tags.ResolveTagsAppend | enpasstokeepass.py:337-340 | tags follow the order of the references: resolving a concatenation concatenates the results |
| Tags.ResolveTagsAllKnown | enpasstokeepass.py:337-340 | when every reference is known, tag k is the name of reference k |
| Tags.ResolveTags | enpasstokeepass.py:336-340 | at most one tag per reference, each a directory name; contents and order are stated by the three lemmas above |
| Category.ResolveCategory | enpasstokeepass.py:299-317 | no dot or a UUID gives ("Miscellaneous", "", false); otherwise the category is the dot-free text before the first dot, the subcategory the dot-free text after it up to the next dot or the end, and the flag is `endswith(".default")` |
| Category.ResolveCategoryOfPieces | enpasstokeepass.py:299-317 | conversely, a non-UUID template type that starts with a dot-free category, a dot and a dot-free subcategory, followed by its end or a dot, resolves to exactly those pieces |
| Category.TemplateTypeGroupPath | enpasstokeepass.py:420-442 | the group path has one or two levels, is ["Miscellaneous", ""] in the fallback case, starts with the text before the first dot, and has one level exactly when the template type ends in ".default" |
| Category.GroupPath | enpasstokeepass.py:431-442 | the path starts with the category and has one level exactly for a default template type, else the subcategory as second level |
| Titles.EnsureGroups | enpasstokeepass.py:420-442 | the category group and the placement group exist afterwards, no other group is added, and no group's titles change |
| Titles.AssignTitle | enpasstokeepass.py:453-475 | an empty title is skipped; a taken title gets `_<uuid>` once; a title still taken skips the item with the store unchanged; otherwise exactly that free title is added to the group |
| Titles.AssignTitleGrows | enpasstokeepass.py:459-475 | title assignment adds at most the placed title to its own group and nothing elsewhere |
| FieldClassifier.RelabelRules | enpasstokeepass.py:362-399 | TOTP fields start from "otp"; an empty label becomes `empty_enpass_label_<uid>`; a label already taken, or reserved and not special, gets `_<uid>`, and with well-behaved collaborators the result is exactly `<label>_<uid>`; a free, unreserved label is kept verbatim unless it lowers to a key category, in which case it gets `_<uid>` |
| FieldClassifier.RelabelIsFree | enpasstokeepass.py:381-399 | the final label never lowers to a key category and, with well-behaved collaborators, is never a reserved key other than a special one |
| FieldClassifier.Relabel | enpasstokeepass.py:362-399 | the relabelling chain; its behaviour is stated by `FieldClassifier.RelabelRules` and `FieldClassifier.RelabelIsFree` |
| FieldClassifier.Step | enpasstokeepass.py:354-413 | one iteration of the field loop; stated by `FieldClassifier.StepKeepsValid` and `FieldClassifier.DemotedFieldFate` |
| FieldClassifier.StepKeepsValid | enpasstokeepass.py:354-413 | one field keeps the invariant (only key categories as keys, distinct property keys, no control characters in values, no key-category or non-special reserved property keys), never rewrites an earlier property and stores at most one value |
| FieldClassifier.Classify | enpasstokeepass.py:343-413 | after the loop the invariant holds and keys plus properties number at most the fields |
| FieldClassifier.KeysAreFirstOccurrence | enpasstokeepass.py:354-359 | each key attribute is the first non-empty value of its type in field order, and absent when there is none |
| FieldClassifier.PropsComeFromDemotedFields | enpasstokeepass.py:354-413 | every property comes from a field with a value that did not fill its key attribute, under that field's relabelled name and with its stripped value |
| FieldClassifier.EmptyValuesAreIgnored | enpasstokeepass.py:351-354 | removing all fields with an empty value changes neither key attributes nor properties |
| FieldClassifier.NoOverwrite | enpasstokeepass.py:405-413 | later fields never rewrite earlier results: properties only grow at the end, key attributes keep their values |
| FieldClassifier.DemotedFieldFate | enpasstokeepass.py:360-413 | a demoted field is appended with its stripped value when its new label is free and dropped otherwise; a free, non-empty, unreserved, non-key label is stored verbatim |
| PropertyWrites.PlanWrites | enpasstokeepass.py:493-518 | at most one write per property, in order; custom-property writes carry unreserved keys and attribute writes name a special key |
| PropertyWrites.EveryPropertyIsWritten | enpasstokeepass.py:493-518 | when no property key needs the reserved suffix, every property is written, in order, with its value, under its key or through the special attribute whose name lowers like its key |
| PropertyWrites.WriteFor | enpasstokeepass.py:501-518 | a property is not written exactly when its key is reserved and not special; otherwise its one write carries its value, under its own key when it is a custom property |
| PropertyWrites.PlanWritesAppend | enpasstokeepass.py:493-518 | properties are written one at a time in dictionary order: the writes of a concatenation are the writes of its parts |
| PropertyWrites.PlanWriteOfOne | enpasstokeepass.py:501-518 | one property gives no write iff its key is reserved and not special, a custom property under its key when the key is not reserved, and otherwise the attribute named by the reserved key it matches, with its value |
| PropertyWrites.ReservedPropertyIsSkipped | enpasstokeepass.py:508-518 | a property whose key is reserved and not special is skipped and the others are written as if it were absent |
| Driver.EntryContents | enpasstokeepass.py:444-485 | the entry goes to the group its template type resolves to and carries the names of its known folder references as tags, in order; username and password are the first non-empty values of their type or "", url the first or None, an empty note becomes None, and with well-behaved collaborators every property is written, in order, with its value, under its key or through the special attribute its key names |
| Driver.Notes | enpasstokeepass.py:328 | an empty note becomes None, any other note is kept |
| Driver.Assemble | enpasstokeepass.py:444-485 | the `add_entry` arguments (destination group, title, username, password, url, notes, tags) and the property writes of an item; stated by `Driver.EntryContents` |
| Driver.ConvertItem | enpasstokeepass.py:420-485 | an item is skipped as untitled iff its title is empty, and an entry is created iff the title or title `_<uuid>` is free in the template type's group; the created entry is the item's entry, sits in that group under the title when it was free and title `_<uuid>` otherwise, and exactly that title is added to that group while every other group keeps its titles; a duplicate skip reports title `_<uuid>` |
| Driver.CreatedInContents | enpasstokeepass.py:453-485 | a title is among the titles created in a group exactly when some outcome created an entry with that title in that group |
| Driver.CreatedInPrefix | enpasstokeepass.py:453-485 | the titles created by the first items are among those created by all of them |
| Driver.RunStep | enpasstokeepass.py:453-485 | handling one more item keeps the title bookkeeping: each group holds its starting titles plus exactly the created ones, created titles were free before the run and are distinct within each group |
| Driver.RunDecidedStep | enpasstokeepass.py:453-485 | handling one more item keeps every earlier item's decision, taken against the titles its group had when it was handled, and adds the new item's decision against the current titles |
| Driver.Convert | enpasstokeepass.py:267-485 | one outcome per item; untitled iff the title is empty; item i is created iff its title or title `_<uuid>` is not among the titles its group had before it (the starting ones plus those created for items 0..i-1), under the title when that was free and title `_<uuid>` otherwise, as the item's entry in its template type's group; a duplicate skip reports title `_<uuid>` and had both candidates taken then; each group ends with exactly its starting titles plus the created ones, created titles were not in the group before the run and are pairwise distinct within it |
| Scenarios.SecondPasswordBecomesProperty | enpasstokeepass.py:354-413 | with two password fields that have values, the first fills the password attribute and the second becomes the only property, under its own label when that label is unreserved and not a key category |
| Scenarios.SecondPasswordNamedLikeAKeyIsSuffixed | enpasstokeepass.py:381-399 | with well-behaved collaborators, a second password field whose label lowers to a key category or is a reserved name (such as "Password") becomes the only property, under `<label>_<uid>` |
| Scenarios.EmptyLabelIsSynthesised | enpasstokeepass.py:368-372 | a field with empty label and uid "abc123" is stored as `empty_enpass_label_abc123` |
| Scenarios.DefaultTemplateType | enpasstokeepass.py:299-317 | "<category>.default" resolves to (category, "default", true) and is placed directly in the category group |
| Scenarios.UuidTemplateType | enpasstokeepass.py:310-317 | a template type that parses as a UUID is placed in Miscellaneous/"" |
| Scenarios.SecondSameTitleGetsUuid | enpasstokeepass.py:453-475 | of two items with the same title in the same group, the second is created as title `_<uuid>` |
| Scenarios.TotpGoesToOtpAttribute | enpasstokeepass.py:362-365 | a TOTP field is stored as "otp" whatever its label and written through the OTP attribute, whenever the reserved-key lookup answers "otp" for "otp" (as with pykeepass's list) and "otp" does not lower to a key category |

## Left out

- Reading the export file and JSON parsing (enpasstokeepass.py:58-98): I/O and the `json` library. The parsed export is the `Export.Document` datatype; lists the export omits are empty sequences, which the code treats alike, and JSON `null` values are not represented.
- Missing item or field keys: an item without "updated_at", "template_type", "title", "uuid" or "note", or a field without "value", "type", "label" or "uid" (enpasstokeepass.py:288, 299, 320-321, 328, 346-349), makes the code raise `KeyError` and stop before the database is saved (enpasstokeepass.py:539), so nothing is written; the `Export.Item` and `Export.Field` datatypes make these keys mandatory, and `Driver.Convert` gives an outcome for every item.
- Command-line parsing (enpasstokeepass.py:165-197) and all logging, including the diagnostics for renamed labels, dropped fields and skipped titles.
- Opening and saving the KeePass database (enpasstokeepass.py:216-225, 537-539); the save also does not happen when the export has no "items" key.
- pykeepass's `find_groups`, `add_group`, `find_entries_by_title` and `add_entry`: the store is an abstract map from group path to titles and each created entry is a descriptor. pykeepass searches groups and titles recursively by default, so a same-named group or entry deeper in the tree can be found; the model identifies groups by their path.
- Timestamps (enpasstokeepass.py:286-294, 487-490): `datetime.fromtimestamp`, `pytz` and float epochs; including the `createdAt`/`created_at` key mismatch.
- Attachments (enpasstokeepass.py:330-331, 520-535): base64 decoding and binary storage are library calls.
- `uuid.UUID`, `str.lower` and the Unicode category lookup are abstract functions in `Config.Env`; the reserved-key list loaded at enpasstokeepass.py:45-50 is a parameter.
- Python's `str.lower` is arbitrary in the model except for the `LowerKeepsUnderscore` hypothesis, which the label guarantees rely on.

=== FILE: category.dfy ===
/** Where an item goes: Enpass's dotted `template_type` (for example
    "login.default" or "finance.creditcard") becomes a one- or two-level
    KeePass group path. */
module Category {
  import opened Strings
  import opened Config

  const Miscellaneous: string := "Miscellaneous"
  const DefaultSuffix: string := ".default"

  /** `category`, `subcategory` and `default_category` of one item. */
  datatype Placement = Placement(category: string, subcategory: string, isDefault: bool)

  /** The fallback placement for a template type with no dot or that parses as a UUID. */
  const Fallback: Placement := Placement(Miscellaneous, "", false)

  /** The placement of a template type. With a dot and not a UUID, the category
      is the text before the first dot, the subcategory the text up to the
      next dot or the end, and the default flag says whether the whole string
      ends in ".default". The UUID test is applied to the whole string. */
  function ResolveCategory(env: Env, templateType: string): (p: Placement)
    ensures '.' !in templateType || env.isUuid(templateType) ==> p == Fallback
    ensures '.' in templateType && !env.isUuid(templateType) ==>
      && '.' !in p.category
      && '.' !in p.subcategory
      && p.category + "." + p.subcategory <= templateType
      && (var n := |p.category| + 1 + |p.subcategory|;
          n == |templateType| || templateType[n] == '.')
      && p.isDefault == EndsWith(templateType, DefaultSuffix)
  {
    var isDefault := EndsWith(templateType, DefaultSuffix);
    if '.' in templateType && !env.isUuid(templateType) then
      var parts := Split(templateType, '.');
      JoinFirstTwo(parts, '.');
      Placement(parts[0], parts[1], isDefault)
    else
      Fallback
  }

  /** Conversely, a template type that is not a UUID and starts with a
      dot-free category, a dot and a dot-free subcategory, followed by its
      end or another dot, resolves to exactly those two pieces. */
  lemma ResolveCategoryOfPieces(env: Env, category: string, subcategory: string, rest: string)
    requires '.' !in category && '.' !in subcategory
    requires rest == "" || rest[0] == '.'
    requires !env.isUuid(category + "." + subcategory + rest)
    ensures var tt := category + "." + subcategory + rest;
      ResolveCategory(env, tt) == Placement(category, subcategory, EndsWith(tt, DefaultSuffix))
  {
    var tt := category + "." + subcategory + rest;
    assert tt[|category|] == '.';
    PiecesDetermined(ResolveCategory(env, tt), tt, category, subcategory, rest);
  }

  /** The pieces `ResolveCategory` promises are the only ones `tt` has. */
  lemma PiecesDetermined(p: Placement, tt: string, category: string, subcategory: string, rest: string)
    requires '.' !in category && '.' !in subcategory
    requires rest == "" || rest[0] == '.'
    requires tt == category + "." + subcategory + rest
    requires '.' !in p.category && '.' !in p.subcategory
    requires p.category + "." + p.subcategory <= tt
    requires var n := |p.category| + 1 + |p.subcategory|; n == |tt| || tt[n] == '.'
    ensures p.category == category && p.subcategory == subcategory
  {
    assert tt[|category|] == '.';
    assert p.category <= p.category + "." + p.subcategory <= tt;
    PieceUnique(p.category, category, tt, '.');
    var after := tt[|category| + 1..];
    assert after == subcategory + rest;
    assert p.subcategory <= after by {
      assert forall k :: 0 <= k < |p.subcategory| ==> p.subcategory[k] == tt[|category| + 1 + k];
    }
    var n := |category| + 1 + |p.subcategory|;
    assert |p.subcategory| == |after| || after[|p.subcategory|] == tt[n];
    PieceUnique(p.subcategory, subcategory, after, '.');
  }

  /** The group the entry is placed in: the category group alone for a
      default template type, otherwise its subcategory group. */
  function GroupPath(p: Placement): (path: seq<string>)
    ensures 1 <= |path| <= 2 && path[0] == p.category
    ensures |path| == 1 <==> p.isDefault
    ensures |path| == 2 ==> path[1] == p.subcategory
  {
    if p.isDefault then [p.category] else [p.category, p.subcategory]
  }

  /** The group path of a template type, stated without reference to `Split`. */
  lemma TemplateTypeGroupPath(env: Env, templateType: string)
    ensures var path := GroupPath(ResolveCategory(env, templateType));
      && 1 <= |path| <= 2
      && ('.' !in templateType || env.isUuid(templateType) ==> path == [Miscellaneous, ""])
      && ('.' in templateType && !env.isUuid(templateType) ==>
            && path[0] + "." <= templateType
            && '.' !in path[0]
            && (|path| == 1 <==> EndsWith(templateType, DefaultSuffix)))
  {
    var p := ResolveCategory(env, templateType);
    if '.' in templateType && !env.isUuid(templateType) {
      assert p.category + "." <= p.category + "." + p.subcategory;
    }
  }
}

=== FILE: config.dfy ===
/** The converter's fixed name tables and the collaborators it calls but
    does not define: pykeepass's reserved-key list, `str.lower`,
    the Unicode category lookup and the `uuid.UUID` parser. */
module Config {

  /** The outside world as the core sees it. */
  datatype Env = Env(
    reservedKeys: seq<string>,    // pykeepass `entry.reserved_keys`, in list order
    lower: string -> string,      // `str.lower`
    isControl: char -> bool,      // Unicode general category starts with "C"
    isUuid: string -> bool)       // `uuid.UUID(s)` succeeds

  /** KeePass's native entry attributes; also forbidden as custom labels. */
  const KeyCategories: seq<string> := ["username", "email", "password", "url"]

  /** Reserved keys that are written through their own entry attribute. */
  const SpecialKeys: seq<string> := ["otp"]

  /** Enpass field type of a one-time-password secret, and the KeePass label it gets. */
  const TotpType: string := "totp"
  const OtpLabel: string := "otp"

  /** Prefix of the label synthesised for a field whose label is empty. */
  const EmptyLabelPrefix: string := "empty_enpass_label_"

  /** `str.lower` leaves `_` alone, so a string with an underscore lowers to one with an underscore. */
  ghost predicate LowerKeepsUnderscore(lower: string -> string) {
    forall s: string {:trigger lower(s)} :: '_' in s ==> '_' in lower(s)
  }

  /** No reserved key lowers to a string containing an underscore. */
  ghost predicate ReservedKeysHaveNoUnderscore(env: Env) {
    forall i :: 0 <= i < |env.reservedKeys| ==> '_' !in env.lower(env.reservedKeys[i])
  }

  /** The two facts about the collaborators that the label guarantees depend on. */
  ghost predicate WellBehaved(env: Env) {
    LowerKeepsUnderscore(env.lower) && ReservedKeysHaveNoUnderscore(env)
  }

  /** None of the key category names contains an underscore. */
  lemma KeyCategoriesHaveNoUnderscore()
    ensures forall i :: 0 <= i < |KeyCategories| ==> '_' !in KeyCategories[i]
  {
    assert '_' !in "username" && '_' !in "email" && '_' !in "password" && '_' !in "url";
  }
}

=== FILE: driver.dfy ===
/** The item loop: build the tag directory once, then turn each export item
    into at most one KeePass entry descriptor, threading the per-group
    title sets from one item to the next. */
module Driver {
  import opened Optional
  import opened Config
  import opened Export
  import opened Tags
  import opened Category
  import opened FieldClassifier
  import opened PropertyWrites
  import opened Titles
  import opened Strings

  /** The arguments of `add_entry` plus the properties written after it.
      The e-mail key attribute is read but never passed on. */
  datatype Entry = Entry(
    group: seq<string>,
    title: string,
    username: string,
    password: string,
    url: Option<string>,
    notes: Option<string>,
    tags: seq<string>,
    writes: seq<PropertyWrite>)

  /** What one item produced. */
  datatype Outcome =
    | Created(entry: Entry)
    | SkippedUntitled
    | SkippedDuplicate(title: string)

  /** An empty note becomes None. */
  function Notes(note: string): (r: Option<string>)
    ensures r.None? <==> note == ""
    ensures r.Some? ==> r.value == note
  {
    if note != "" then Some(note) else None
  }

  /** The entry an item becomes once its title is settled. */
  function Assemble(env: Env, dir: map<string, string>, item: Item, title: string): Entry {
    var c := Classify(env, item.fields);
    Entry(
      GroupPath(ResolveCategory(env, item.templateType)),
      title,
      Lookup(c.keys, "username").GetOr(""),
      Lookup(c.keys, "password").GetOr(""),
      Lookup(c.keys, "url"),
      Notes(item.note),
      ResolveTags(dir, item.folders),
      PlanWrites(env, c.props))
  }

  /** The entry goes to the group its template type places it in, carries
      the tags its folder references resolve to, and its key attributes are
      the first non-empty values of their type (username and password default
      to "", url to None); an empty note becomes None, and with well-behaved
      collaborators every collected property is written, in order, with its
      value. */
  lemma EntryContents(env: Env, dir: map<string, string>, item: Item, title: string)
    ensures var e := Assemble(env, dir, item, title);
      && e.group == GroupPath(ResolveCategory(env, item.templateType))
      && e.tags == ResolveTags(dir, item.folders)
      && e.title == title
      && e.username == FirstValueOfType(item.fields, "username").GetOr("")
      && e.password == FirstValueOfType(item.fields, "password").GetOr("")
      && e.url == FirstValueOfType(item.fields, "url")
      && (e.notes == None <==> item.note == "")
      && (e.notes.Some? ==> e.notes.value == item.note)
      && (WellBehaved(env) ==> WritesAll(env, Classify(env, item.fields).props, e.writes))
  {
    KeysAreFirstOccurrence(env, item.fields);
    assert "username" in KeyCategories && "password" in KeyCategories && "url" in KeyCategories;
    var c := Classify(env, item.fields);
    if WellBehaved(env) {
      EveryPropertyIsWritten(env, c.props);
    }
  }

  /** One pass of the item loop: create the item's groups, then settle its
      title and, if it is placed, emit its entry. */
  function ConvertItem(env: Env, dir: map<string, string>, store: Store, item: Item): (r: (Outcome, Store))
    ensures r.0 == SkippedUntitled <==> item.title == ""
    ensures forall g :: TitlesIn(store, g) <= TitlesIn(r.1, g)
    ensures r.0.Created? ==>
      && r.0.entry.group == GroupPath(ResolveCategory(env, item.templateType))
      && r.0.entry.title !in TitlesIn(store, r.0.entry.group)
      && r.0.entry.title in TitlesIn(r.1, r.0.entry.group)
      && (r.0.entry.title == item.title || r.0.entry.title == Suffixed(item.title, item.uuid))
      && r.0.entry == Assemble(env, dir, item, r.0.entry.title)
    ensures r.0.SkippedDuplicate? ==> r.0.title == Suffixed(item.title, item.uuid)
    ensures !r.0.Created? ==> forall g :: TitlesIn(r.1, g) == TitlesIn(store, g)
    ensures r.0.Created? ==> forall g :: g != r.0.entry.group ==> TitlesIn(r.1, g) == TitlesIn(store, g)
    ensures var g := GroupPath(ResolveCategory(env, item.templateType));
      && (r.0.Created? <==>
        item.title != "" && (item.title !in TitlesIn(store, g) || Suffixed(item.title, item.uuid) !in TitlesIn(store, g)))
      && (r.0.Created? ==>
        && r.0.entry.title == (if item.title in TitlesIn(store, g) then Suffixed(item.title, item.uuid) else item.title)
        && TitlesIn(r.1, g) == TitlesIn(store, g) + {r.0.entry.title})
  {
    var placement := ResolveCategory(env, item.templateType);
    var group := GroupPath(placement);
    var withGroups := EnsureGroups(store, placement);
    var (decision, store') := AssignTitle(withGroups, group, item.title, item.uuid);
    AssignTitleGrows(withGroups, group, item.title, item.uuid);
    match decision
    case Untitled => (SkippedUntitled, store')
    case Duplicate(t) => (SkippedDuplicate(t), store')
    case Placed(t) => (Created(Assemble(env, dir, item, t)), store')
  }

  /** The entries created so far have pairwise distinct titles within each group. */
  ghost predicate DistinctTitlesPerGroup(outcomes: seq<Outcome>) {
    forall i, j :: 0 <= i < j < |outcomes| ==> !Clash(outcomes[i], outcomes[j])
  }

  /** Two created entries in the same group with the same title. */
  predicate Clash(a: Outcome, b: Outcome) {
    && a.Created? && b.Created?
    && a.entry.group == b.entry.group
    && a.entry.title == b.entry.title
  }

  /** A created entry's title was free in its group before the run and is
      recorded there now. */
  ghost predicate FreshIn(o: Outcome, store: Store, final: Store) {
    o.Created? ==>
      && o.entry.title !in TitlesIn(store, o.entry.group)
      && o.entry.title in TitlesIn(final, o.entry.group)
  }

  /** The titles of the entries among `outcomes` created in group `g`. */
  ghost function CreatedIn(outcomes: seq<Outcome>, g: seq<string>): set<string> {
    if |outcomes| == 0 then {}
    else
      var last := outcomes[|outcomes| - 1];
      CreatedIn(outcomes[..|outcomes| - 1], g) + (if last.Created? && last.entry.group == g then {last.entry.title} else {})
  }

  /** A title is in `CreatedIn(outcomes, g)` exactly when some outcome created
      an entry with that title in `g`. */
  lemma {:induction false} CreatedInContents(outcomes: seq<Outcome>, g: seq<string>)
    ensures forall t :: t in CreatedIn(outcomes, g) <==>
      exists j :: 0 <= j < |outcomes| && outcomes[j].Created? && outcomes[j].entry.group == g && outcomes[j].entry.title == t
  {
    if |outcomes| > 0 {
      var init := outcomes[..|outcomes| - 1];
      CreatedInContents(init, g);
      assert forall j :: 0 <= j < |init| ==> init[j] == outcomes[j];
    }
  }

  /** Earlier outcomes create no more than all of them. */
  lemma {:induction false} CreatedInPrefix(outcomes: seq<Outcome>, i: nat, g: seq<string>)
    requires i <= |outcomes|
    ensures CreatedIn(outcomes[..i], g) <= CreatedIn(outcomes, g)
  {
    if i < |outcomes| {
      var init := outcomes[..|outcomes| - 1];
      assert init[..i] == outcomes[..i];
      CreatedInPrefix(init, i, g);
    } else {
      assert outcomes[..i] == outcomes;
    }
  }

  /** The titles of group `g` when item `i` is handled: those of `store` and
      those of the entries created for the items before it. */
  ghost function TitlesBefore(store: Store, outcomes: seq<Outcome>, i: nat, g: seq<string>): set<string>
    requires i <= |outcomes|
  {
    TitlesIn(store, g) + CreatedIn(outcomes[..i], g)
  }

  /** The titles a group had at any point of the run are still there at its end. */
  lemma TitlesBeforeAreKept(store: Store, outcomes: seq<Outcome>, final: Store)
    requires forall g :: TitlesIn(final, g) == TitlesIn(store, g) + CreatedIn(outcomes, g)
    ensures forall i: nat, g :: i <= |outcomes| ==> TitlesBefore(store, outcomes, i, g) <= TitlesIn(final, g)
  {
    forall i: nat, g | i <= |outcomes| ensures TitlesBefore(store, outcomes, i, g) <= TitlesIn(final, g) {
      CreatedInPrefix(outcomes, i, g);
    }
  }

  /** How an item's outcome follows from `titles`, the titles of its group
      `groupOf(item)` when it is handled: untitled iff the title is empty;
      created iff the title or title `_<uuid>` is free, under the title when
      it is free and title `_<uuid>` otherwise, as the item's entry in its
      group; a duplicate, reported as title `_<uuid>`, had both candidate
      titles taken. */
  ghost predicate Decided(entryFor: (Item, string) -> Entry, groupOf: Item -> seq<string>,
                          item: Item, o: Outcome, titles: set<string>) {
    var suffixed := Suffixed(item.title, item.uuid);
    && (o == SkippedUntitled <==> item.title == "")
    && (o.Created? <==> item.title != "" && (item.title !in titles || suffixed !in titles))
    && (o.Created? ==>
      && o.entry.group == groupOf(item)
      && o.entry.title == (if item.title in titles then suffixed else item.title)
      && o.entry == entryFor(item, o.entry.title))
    && (o.SkippedDuplicate? ==> o.title == suffixed && item.title in titles && suffixed in titles)
  }

  /** What one pass over `item` did: it turned the titles `before` into
      `after`, produced `o` as `Decided` against the titles its group had,
      and recorded exactly the created title, if any. */
  ghost predicate ItemStep(entryFor: (Item, string) -> Entry, groupOf: Item -> seq<string>,
                           item: Item, o: Outcome, before: Store, after: Store) {
    && Decided(entryFor, groupOf, item, o, TitlesIn(before, groupOf(item)))
    && (forall g :: TitlesIn(after, g) == TitlesIn(before, g) + (if o.Created? && o.entry.group == g then {o.entry.title} else {}))
  }

  /** Every handled item's outcome is decided against the titles its group
      had at that point. */
  ghost predicate RunDecided(entryFor: (Item, string) -> Entry, groupOf: Item -> seq<string>,
                             store: Store, items: seq<Item>, outcomes: seq<Outcome>) {
    && |outcomes| <= |items|
    && forall i :: 0 <= i < |outcomes| ==>
      Decided(entryFor, groupOf, items[i], outcomes[i], TitlesBefore(store, outcomes, i, groupOf(items[i])))
  }

  /** The titles after the first `|outcomes|` items: exactly those of `store`
      plus the created ones, each created title new to its group and distinct
      from the other created titles there. */
  ghost predicate RunTitles(store: Store, outcomes: seq<Outcome>, final: Store) {
    && (forall g :: TitlesIn(final, g) == TitlesIn(store, g) + CreatedIn(outcomes, g))
    && (forall i :: 0 <= i < |outcomes| ==> FreshIn(outcomes[i], store, final))
    && DistinctTitlesPerGroup(outcomes)
  }

  /** Handling one more item keeps `RunTitles`. */
  lemma RunStep(entryFor: (Item, string) -> Entry, groupOf: Item -> seq<string>,
                store: Store, item: Item, outcomes: seq<Outcome>, final: Store, o: Outcome, next: Store)
    requires RunTitles(store, outcomes, final)
    requires ItemStep(entryFor, groupOf, item, o, final, next)
    ensures RunTitles(store, outcomes + [o], next)
  {
    var all := outcomes + [o];
    assert all[..|outcomes|] == outcomes;
    assert forall g :: CreatedIn(all, g) == CreatedIn(outcomes, g) + (if o.Created? && o.entry.group == g then {o.entry.title} else {});
    if o.Created? {
      assert o.entry.title !in TitlesIn(final, o.entry.group);
    }
    forall i | 0 <= i < |all| ensures FreshIn(all[i], store, next) {
      if i < |outcomes| {
        assert all[i] == outcomes[i];
        assert FreshIn(outcomes[i], store, final);
      }
    }
    forall i, j | 0 <= i < j < |all| ensures !Clash(all[i], all[j]) {
      if j == |outcomes| && all[i].Created? && o.Created? && all[i].entry.group == o.entry.group {
        assert FreshIn(outcomes[i], store, final);
      }
    }
  }

  /** Handling one more item keeps `RunDecided`: earlier items keep the
      titles they were decided against, and the new one is decided against
      the current titles. */
  lemma RunDecidedStep(entryFor: (Item, string) -> Entry, groupOf: Item -> seq<string>,
                       store: Store, items: seq<Item>, outcomes: seq<Outcome>, final: Store, o: Outcome)
    requires RunDecided(entryFor, groupOf, store, items, outcomes)
    requires |outcomes| < |items|
    requires var g := groupOf(items[|outcomes|]); TitlesIn(final, g) == TitlesIn(store, g) + CreatedIn(outcomes, g)
    requires Decided(entryFor, groupOf, items[|outcomes|], o, TitlesIn(final, groupOf(items[|outcomes|])))
    ensures RunDecided(entryFor, groupOf, store, items, outcomes + [o])
  {
    var all := outcomes + [o];
    var last := items[|outcomes|];
    DecidedLast(entryFor, groupOf, store, last, outcomes, final, o);
    assert Decided(entryFor, groupOf, last, all[|outcomes|], TitlesBefore(store, all, |outcomes|, groupOf(last)));
    forall i | 0 <= i < |outcomes|
      ensures Decided(entryFor, groupOf, items[i], all[i], TitlesBefore(store, all, i, groupOf(items[i])))
    {
      DecidedKept(entryFor, groupOf, store, items[i], outcomes, o, i);
    }
  }

  /** An earlier item's decision is unaffected by a later outcome. */
  lemma DecidedKept(entryFor: (Item, string) -> Entry, groupOf: Item -> seq<string>,
                    store: Store, item: Item, outcomes: seq<Outcome>, o: Outcome, i: nat)
    requires i < |outcomes|
    requires Decided(entryFor, groupOf, item, outcomes[i], TitlesBefore(store, outcomes, i, groupOf(item)))
    ensures Decided(entryFor, groupOf, item, (outcomes + [o])[i], TitlesBefore(store, outcomes + [o], i, groupOf(item)))
  {
    var all := outcomes + [o];
    assert all[..i] == outcomes[..i];
  }

  /** The new item is decided against the titles its group has before it. */
  lemma DecidedLast(entryFor: (Item, string) -> Entry, groupOf: Item -> seq<string>,
                    store: Store, item: Item, outcomes: seq<Outcome>, final: Store, o: Outcome)
    requires TitlesIn(final, groupOf(item)) == TitlesIn(store, groupOf(item)) + CreatedIn(outcomes, groupOf(item))
    requires Decided(entryFor, groupOf, item, o, TitlesIn(final, groupOf(item)))
    ensures Decided(entryFor, groupOf, item, (outcomes + [o])[|outcomes|], TitlesBefore(store, outcomes + [o], |outcomes|, groupOf(item)))
  {
    var all := outcomes + [o];
    assert all[..|outcomes|] == outcomes;
  }

  /** `ConvertItem` is one `ItemStep` when `entryFor` and `groupOf` are the
      conversion's own entry assembly and group placement. */
  lemma ConvertItemStep(env: Env, dir: map<string, string>, store: Store, item: Item,
                        entryFor: (Item, string) -> Entry, groupOf: Item -> seq<string>)
    requires forall it, t :: entryFor(it, t) == Assemble(env, dir, it, t)
    requires forall it :: groupOf(it) == GroupPath(ResolveCategory(env, it.templateType))
    ensures var r := ConvertItem(env, dir, store, item); ItemStep(entryFor, groupOf, item, r.0, store, r.1)
  {
    var r := ConvertItem(env, dir, store, item);
    assert groupOf(item) == GroupPath(ResolveCategory(env, item.templateType));
    if r.0.Created? {
      assert entryFor(item, r.0.entry.title) == Assemble(env, dir, item, r.0.entry.title);
    }
  }

  /** The whole conversion over `store`, the titles each group already holds.
      Every item gets one outcome, decided against the titles its group has
      when the item is handled; the final titles are those of `store` plus
      the created ones, and no created entry reuses a title present in its
      group, either before the run or from an earlier item. */
  method Convert(env: Env, doc: Document, store: Store) returns (outcomes: seq<Outcome>, final: Store)
    ensures |outcomes| == |doc.items|
    ensures forall i :: 0 <= i < |outcomes| ==> (outcomes[i] == SkippedUntitled <==> doc.items[i].title == "")
    ensures forall i :: 0 <= i < |outcomes| ==>
      var item := doc.items[i];
      var g := GroupPath(ResolveCategory(env, item.templateType));
      var before := TitlesBefore(store, outcomes, i, g);
      && (outcomes[i].Created? <==>
          item.title != "" && (item.title !in before || Suffixed(item.title, item.uuid) !in before))
      && (outcomes[i].Created? ==>
          && outcomes[i].entry.group == g
          && outcomes[i].entry.title == (if item.title in before then Suffixed(item.title, item.uuid) else item.title)
          && outcomes[i].entry == Assemble(env, TagDirectory(doc.folders), item, outcomes[i].entry.title))
      && (outcomes[i].SkippedDuplicate? ==>
          && outcomes[i].title == Suffixed(item.title, item.uuid)
          && item.title in before && Suffixed(item.title, item.uuid) in before)
    ensures forall g :: TitlesIn(final, g) == TitlesIn(store, g) + CreatedIn(outcomes, g)
    ensures forall g :: TitlesIn(store, g) <= TitlesIn(final, g)
    ensures forall i :: 0 <= i < |outcomes| && outcomes[i].Created? ==>
      && outcomes[i].entry.title !in TitlesIn(store, outcomes[i].entry.group)
      && outcomes[i].entry.title in TitlesIn(final, outcomes[i].entry.group)
    ensures DistinctTitlesPerGroup(outcomes)
    ensures forall i :: 0 <= i < |outcomes| && outcomes[i].SkippedDuplicate? ==>
      var g := GroupPath(ResolveCategory(env, doc.items[i].templateType));
      doc.items[i].title in TitlesIn(final, g) && Suffixed(doc.items[i].title, doc.items[i].uuid) in TitlesIn(final, g)
  {
    var dir := TagDirectory(doc.folders);
    ghost var entryFor := (it: Item, t: string) => Assemble(env, dir, it, t);
    ghost var groupOf := (it: Item) => GroupPath(ResolveCategory(env, it.templateType));
    assert forall it, t :: entryFor(it, t) == Assemble(env, dir, it, t);
    assert forall it :: groupOf(it) == GroupPath(ResolveCategory(env, it.templateType));
    outcomes := [];
    final := store;
    while |outcomes| < |doc.items|
      invariant RunDecided(entryFor, groupOf, store, doc.items, outcomes)
      invariant RunTitles(store, outcomes, final)
      decreases |doc.items| - |outcomes|
    {
      var (o, next) := ConvertItem(env, dir, final, doc.items[|outcomes|]);
      ConvertItemStep(env, dir, final, doc.items[|outcomes|], entryFor, groupOf);
      RunDecidedStep(entryFor, groupOf, store, doc.items, outcomes, final, o);
      RunStep(entryFor, groupOf, store, doc.items[|outcomes|], outcomes, final, o, next);
      outcomes := outcomes + [o];
      final := next;
    }
    assert forall i :: 0 <= i < |outcomes| ==> FreshIn(outcomes[i], store, final);
    TitlesBeforeAreKept(store, outcomes, final);
  }
}

=== FILE: export.dfy ===
/** The parsed Enpass JSON export, reduced to what the converter reads.
    A list the export leaves out ("folders", "items", an item's "folders"
    or "fields") is the empty sequence: the converter treats both alike. */
module Export {
  import opened Optional

  /** An entry of the export's top-level "folders" list; any key may be missing. */
  datatype Folder = Folder(uuid: Option<string>, title: Option<string>, parentUuid: Option<string>)

  /** One field of an item: its `uid`, its `label` (here `name`), its `type` (here `kind`) and its `value`. */
  datatype Field = Field(uid: string, name: string, kind: string, value: string)

  /** One item of the export's "items" list. `folders` holds folder uuids. */
  datatype Item = Item(
    uuid: string,
    title: string,
    templateType: string,
    note: string,
    folders: seq<string>,
    fields: seq<Field>)

  datatype Document = Document(folders: seq<Folder>, items: seq<Item>)
}

=== FILE: fields.dfy ===
/** The per-item field loop: every field with a value either fills one of the
    four KeePass key attributes (first occurrence of each type wins) or
    becomes a custom property under a relabelled, collision-free label. The
    custom properties are an insertion-ordered dictionary, modelled as a
    sequence of properties with pairwise distinct keys. */
module FieldClassifier {
  import opened Optional
  import opened Config
  import opened Export
  import opened Sanitize
  import opened ReservedWords
  import opened Strings

  /** One custom property: its KeePass key and its (sanitised) value. */
  datatype Property = Property(key: string, value: string)

  /** `key_fields` and `value_fields` after some prefix of an item's fields. */
  datatype Classification = Classification(keys: map<string, string>, props: seq<Property>)

  const Empty: Classification := Classification(map[], [])

  /** The keys already present in `value_fields`. */
  function Labels(props: seq<Property>): set<string> {
    set k | 0 <= k < |props| :: props[k].key
  }

  /** No two properties share a key. */
  ghost predicate UniqueKeys(props: seq<Property>) {
    forall i, j :: 0 <= i < j < |props| ==> props[i].key != props[j].key
  }

  /** The label before any renaming: TOTP fields are always called "otp". */
  function BaseLabel(f: Field): string {
    if f.kind == TotpType then OtpLabel else f.name
  }

  /** A label that `is_reserved_word` flags and that is not one of the keys
      KeePass lets us write through their own attribute. */
  predicate NeedsReservedSuffix(env: Env, name: string) {
    var rk := IsReservedWord(env, name);
    IsTruthy(rk) && rk.value !in SpecialKeys
  }

  /** A label containing an underscore is neither a key category nor reserved,
      when the collaborators are well behaved. */
  lemma UnderscoredLabelIsFree(env: Env, name: string)
    requires '_' in name
    ensures LowerKeepsUnderscore(env.lower) ==> env.lower(name) !in KeyCategories
    ensures WellBehaved(env) ==> !NeedsReservedSuffix(env, name)
  {
    if WellBehaved(env) {
      assert '_' in env.lower(name);
    }
    KeyCategoriesHaveNoUnderscore();
    if WellBehaved(env) {
      UnderscoredKeyIsNotReserved(env, name);
    }
  }

  /** The key the field would be stored under, given the properties collected
      so far: TOTP relabelling, empty-label synthesis, duplicate suffix,
      reserved-key suffix (original non-empty labels only), then the
      key-category suffix (every label). */
  function Relabel(env: Env, props: seq<Property>, f: Field): string {
    var base := BaseLabel(f);
    var named :=
      if base == "" then EmptyLabelPrefix + f.uid
      else
        var deduped := if base in Labels(props) then Suffixed(base, f.uid) else base;
        if NeedsReservedSuffix(env, deduped) then Suffixed(deduped, f.uid) else deduped;
    if env.lower(named) in KeyCategories then Suffixed(named, f.uid) else named
  }

  /** The relabelling rules, case by case: TOTP fields start from "otp", an
      empty label becomes the synthesised one, a taken or non-special reserved
      label gets `_<uid>` (exactly once when the collaborators are well
      behaved), and a free, unreserved label is kept unless it lowers to a
      key category. */
  lemma RelabelRules(env: Env, props: seq<Property>, f: Field)
    ensures var name := Relabel(env, props, f);
      var base := BaseLabel(f);
      && (f.kind == TotpType ==> name == OtpLabel || Suffixed(OtpLabel, f.uid) <= name)
      && (base == "" && LowerKeepsUnderscore(env.lower) ==> name == EmptyLabelPrefix + f.uid)
      && (base != "" && base in Labels(props) ==> Suffixed(base, f.uid) <= name)
      && (base != "" && base !in Labels(props) && NeedsReservedSuffix(env, base) ==>
            Suffixed(base, f.uid) <= name)
      && (base != "" && base !in Labels(props) && !NeedsReservedSuffix(env, base) ==>
            name == (if env.lower(base) in KeyCategories then Suffixed(base, f.uid) else base))
      && (WellBehaved(env) && base != "" && (base in Labels(props) || NeedsReservedSuffix(env, base)) ==>
            name == Suffixed(base, f.uid))
  {
    var base := BaseLabel(f);
    var s1 := Suffixed(base, f.uid);
    SuffixedHasUnderscore(base, f.uid);
    SuffixedHasUnderscore(s1, f.uid);
    assert s1 <= Suffixed(s1, f.uid);
    assert s1 <= Suffixed(Suffixed(s1, f.uid), f.uid);
    if WellBehaved(env) {
      UnderscoredLabelIsFree(env, s1);
    }
    if base == "" && LowerKeepsUnderscore(env.lower) {
      assert (EmptyLabelPrefix + f.uid)[5] == '_';
      UnderscoredLabelIsFree(env, EmptyLabelPrefix + f.uid);
    }
  }

  /** Whatever the field, its final label never lowers to a key category and,
      with well-behaved collaborators, is never a reserved key other than a
      special one. */
  lemma RelabelIsFree(env: Env, props: seq<Property>, f: Field)
    ensures LowerKeepsUnderscore(env.lower) ==> env.lower(Relabel(env, props, f)) !in KeyCategories
    ensures WellBehaved(env) ==> !NeedsReservedSuffix(env, Relabel(env, props, f))
  {
    var base := BaseLabel(f);
    var named :=
      if base == "" then EmptyLabelPrefix + f.uid
      else
        var deduped := if base in Labels(props) then Suffixed(base, f.uid) else base;
        if NeedsReservedSuffix(env, deduped) then Suffixed(deduped, f.uid) else deduped;
    var name := Relabel(env, props, f);
    SuffixedHasUnderscore(named, f.uid);
    SuffixedHasUnderscore(base, f.uid);
    SuffixedHasUnderscore(Suffixed(base, f.uid), f.uid);
    assert '_' in EmptyLabelPrefix + f.uid by { assert (EmptyLabelPrefix + f.uid)[5] == '_'; }
    KeyCategoriesHaveNoUnderscore();
    if '_' in name {
      UnderscoredLabelIsFree(env, name);
    }
  }

  /** One iteration of the field loop. A field with an empty value changes
      nothing; the first field of a key type fills that key; any other field
      is added under its new name unless that name is already taken, in
      which case it is dropped. */
  function Step(env: Env, c: Classification, f: Field): Classification {
    if f.value == "" then c
    else if f.kind in KeyCategories && f.kind !in c.keys then
      c.(keys := c.keys[f.kind := f.value])
    else
      var name := Relabel(env, c.props, f);
      var value := StripControl(env.isControl, f.value);
      if name in Labels(c.props) then c
      else c.(props := c.props + [Property(name, value)])
  }

  /** What holds of `key_fields` and `value_fields` after every iteration:
      only key categories are keys, property keys are distinct, no stored
      value holds a control character, and (for well-behaved collaborators)
      no property key lowers to a key category or is a reserved key other
      than "otp". */
  ghost predicate Valid(env: Env, c: Classification) {
    && (forall t :: t in c.keys ==> t in KeyCategories)
    && UniqueKeys(c.props)
    && (forall k, i :: 0 <= k < |c.props| && 0 <= i < |c.props[k].value| ==> !env.isControl(c.props[k].value[i]))
    && (LowerKeepsUnderscore(env.lower) ==> forall k :: 0 <= k < |c.props| ==> env.lower(c.props[k].key) !in KeyCategories)
    && (WellBehaved(env) ==> forall k :: 0 <= k < |c.props| ==> !NeedsReservedSuffix(env, c.props[k].key))
  }

  /** One iteration keeps `Valid`, never rewrites an existing property, and
      stores at most one new value. */
  lemma StepKeepsValid(env: Env, c: Classification, f: Field)
    requires Valid(env, c)
    ensures Valid(env, Step(env, c, f))
    ensures c.props <= Step(env, c, f).props
    ensures |Step(env, c, f).keys| + |Step(env, c, f).props| <= |c.keys| + |c.props| + 1
  {
    var c' := Step(env, c, f);
    if f.value != "" && !(f.kind in KeyCategories && f.kind !in c.keys) {
      var name := Relabel(env, c.props, f);
      RelabelIsFree(env, c.props, f);
      if name !in Labels(c.props) {
        assert c'.props == c.props + [Property(name, StripControl(env.isControl, f.value))];
        forall i, j | 0 <= i < j < |c'.props| ensures c'.props[i].key != c'.props[j].key {
          if j == |c.props| {
            assert c.props[i].key in Labels(c.props);
          }
        }
      }
    }
  }

  /** `key_fields` and `value_fields` after the loop over `fields`. */
  function Classify(env: Env, fields: seq<Field>): (c: Classification)
    ensures Valid(env, c)
    ensures |c.keys| + |c.props| <= |fields|
  {
    if |fields| == 0 then Empty
    else
      var prev := Classify(env, fields[..|fields| - 1]);
      StepKeepsValid(env, prev, fields[|fields| - 1]);
      Step(env, prev, fields[|fields| - 1])
  }

  /** The value of `m` at `k`, if any. */
  function Lookup(m: map<string, string>, k: string): Option<string> {
    if k in m then Some(m[k]) else None
  }

  /** Reference definition of a key attribute: the value of the first field
      of type `t` whose value is not empty, searching from the front. */
  function FirstValueOfType(fields: seq<Field>, t: string): Option<string> {
    if |fields| == 0 then None
    else if fields[0].value != "" && fields[0].kind == t then Some(fields[0].value)
    else FirstValueOfType(fields[1..], t)
  }

  /** Appending a field changes the first value of a type only if there was none. */
  lemma {:induction false} FirstValueOfTypeAppend(fields: seq<Field>, f: Field, t: string)
    ensures FirstValueOfType(fields + [f], t) ==
      if FirstValueOfType(fields, t).Some? then FirstValueOfType(fields, t)
      else if f.value != "" && f.kind == t then Some(f.value)
      else None
  {
    if |fields| > 0 {
      assert (fields + [f])[1..] == fields[1..] + [f];
      FirstValueOfTypeAppend(fields[1..], f, t);
    } else {
      assert (fields + [f])[1..] == [];
    }
  }

  /** One field sets key attribute `t` only when it is still unset. */
  lemma KeyStep(env: Env, c: Classification, f: Field, t: string)
    requires t in KeyCategories
    ensures Lookup(Step(env, c, f).keys, t) ==
      if Lookup(c.keys, t).Some? then Lookup(c.keys, t)
      else if f.value != "" && f.kind == t then Some(f.value)
      else None
  {
  }

  /** Every key attribute in `keys` agrees with the reference definition over `fields`. */
  ghost predicate KeysMatch(fields: seq<Field>, keys: map<string, string>) {
    forall t :: t in KeyCategories ==> Lookup(keys, t) == FirstValueOfType(fields, t)
  }

  /** One more field keeps the key attributes in step with the reference definition. */
  lemma KeysMatchStep(env: Env, fields: seq<Field>, f: Field, c: Classification)
    requires KeysMatch(fields, c.keys)
    ensures KeysMatch(fields + [f], Step(env, c, f).keys)
  {
    forall t | t in KeyCategories
      ensures Lookup(Step(env, c, f).keys, t) == FirstValueOfType(fields + [f], t)
    {
      FirstValueOfTypeAppend(fields, f, t);
      KeyStep(env, c, f, t);
    }
  }

  /** Each key attribute holds the first non-empty value of its type, and is
      absent exactly when no field of that type has a value. */
  lemma {:induction false} KeysAreFirstOccurrence(env: Env, fields: seq<Field>)
    ensures KeysMatch(fields, Classify(env, fields).keys)
  {
    if |fields| > 0 {
      var init := fields[..|fields| - 1];
      var last := fields[|fields| - 1];
      assert init + [last] == fields;
      KeysAreFirstOccurrence(env, init);
      KeysMatchStep(env, init, last, Classify(env, init));
    }
  }

  /** Field `i` has a value but is not the one that fills its key attribute:
      it is a candidate for `value_fields`. */
  predicate IsDemoted(fields: seq<Field>, i: int)
    requires 0 <= i < |fields|
  {
    && fields[i].value != ""
    && !(fields[i].kind in KeyCategories && FirstValueOfType(fields[..i], fields[i].kind).None?)
  }

  /** Property `k` of `props` is explained by field `i`: the field is demoted,
      the key is what the relabelling chain gives it against the properties
      stored before it, and the value is its value without control characters. */
  ghost predicate Explains(env: Env, fields: seq<Field>, props: seq<Property>, k: int, i: int) {
    && 0 <= i < |fields| && IsDemoted(fields, i) && 0 <= k < |props|
    && props[k] == Property(Relabel(env, props[..k], fields[i]), StripControl(env.isControl, fields[i].value))
  }

  /** Some field of `fields` explains property `k`. */
  ghost predicate HasSource(env: Env, fields: seq<Field>, props: seq<Property>, k: int) {
    exists i :: Explains(env, fields, props, k, i)
  }

  /** An explained property stays explained when more fields follow and the
      properties only grow. */
  lemma SourceExtends(env: Env, fields: seq<Field>, f: Field, prev: seq<Property>, props: seq<Property>, k: int)
    requires HasSource(env, fields, prev, k)
    requires prev <= props
    ensures HasSource(env, fields + [f], props, k)
  {
    var i :| Explains(env, fields, prev, k, i);
    assert props[..k] == prev[..k];
    assert (fields + [f])[i] == fields[i] && (fields + [f])[..i] == fields[..i];
    assert Explains(env, fields + [f], props, k, i);
  }

  /** A property appended by one more step is explained by the field of that
      step, given key attributes that agree with the reference definition. */
  lemma LastPropExplained(env: Env, fields: seq<Field>, f: Field, prev: Classification)
    requires KeysMatch(fields, prev.keys)
    requires |prev.props| < |Step(env, prev, f).props|
    ensures Explains(env, fields + [f], Step(env, prev, f).props, |prev.props|, |fields|)
  {
    var all := fields + [f];
    assert all[..|fields|] == fields;
    assert all[|fields|] == f;
    if f.kind in KeyCategories {
      assert Lookup(prev.keys, f.kind).Some?;
    }
    assert IsDemoted(all, |fields|);
    assert Step(env, prev, f).props[..|prev.props|] == prev.props;
  }

  /** Every property in `props` is explained by some field of `fields`. */
  ghost predicate AllSourced(env: Env, fields: seq<Field>, props: seq<Property>) {
    forall k :: 0 <= k < |props| ==> HasSource(env, fields, props, k)
  }

  /** One more field keeps every earlier property explained and explains the one it adds. */
  lemma SourcesExtend(env: Env, fields: seq<Field>, f: Field)
    requires AllSourced(env, fields, Classify(env, fields).props)
    ensures AllSourced(env, fields + [f], Classify(env, fields + [f]).props)
  {
    var prev := Classify(env, fields).props;
    var props := Classify(env, fields + [f]).props;
    ClassifyAppend(env, fields, f);
    if |prev| < |props| {
      KeysAreFirstOccurrence(env, fields);
      LastPropExplained(env, fields, f, Classify(env, fields));
    }
    SourcesShift(env, fields, f, prev, props);
  }

  /** The bookkeeping of `SourcesExtend`, for any properties that grow by at
      most one explained entry. */
  lemma SourcesShift(env: Env, fields: seq<Field>, f: Field, prev: seq<Property>, props: seq<Property>)
    requires AllSourced(env, fields, prev)
    requires prev <= props && |props| <= |prev| + 1
    requires |prev| < |props| ==> Explains(env, fields + [f], props, |prev|, |fields|)
    ensures AllSourced(env, fields + [f], props)
  {
    forall k | 0 <= k < |props|
      ensures HasSource(env, fields + [f], props, k)
    {
      if k < |prev| {
        SourceExtends(env, fields, f, prev, props, k);
      }
    }
  }

  /** Classifying one more field is one more step: the earlier properties
      stay in place and at most one is added. */
  lemma ClassifyAppend(env: Env, fields: seq<Field>, f: Field)
    ensures Classify(env, fields + [f]) == Step(env, Classify(env, fields), f)
    ensures Classify(env, fields).props <= Classify(env, fields + [f]).props
    ensures |Classify(env, fields + [f]).props| <= |Classify(env, fields).props| + 1
  {
    assert (fields + [f])[..|fields|] == fields;
    StepKeepsValid(env, Classify(env, fields), f);
  }

  /** Two fields are two steps from the empty classification. */
  lemma ClassifyPair(env: Env, a: Field, b: Field)
    ensures Classify(env, [a, b]) == Step(env, Step(env, Empty, a), b)
  {
    assert [a, b][..1] == [a];
    assert [a][..0] == [];
  }

  /** Every stored property comes from a demoted field of the item: its key
      is what the relabelling chain gives that field against the properties
      stored before it, and its value is the field's value with control
      characters removed. */
  lemma {:induction false} PropsComeFromDemotedFields(env: Env, fields: seq<Field>)
    ensures AllSourced(env, fields, Classify(env, fields).props)
  {
    if |fields| > 0 {
      var init := fields[..|fields| - 1];
      assert init + [fields[|fields| - 1]] == fields;
      PropsComeFromDemotedFields(env, init);
      SourcesExtend(env, init, fields[|fields| - 1]);
    }
  }

  /** Fields with an empty value are ignored entirely: removing them all
      changes neither `key_fields` nor `value_fields`. */
  lemma {:induction false} EmptyValuesAreIgnored(env: Env, fields: seq<Field>)
    ensures Classify(env, fields) == Classify(env, WithValues(fields))
  {
    if |fields| > 0 {
      var init := fields[..|fields| - 1];
      var f := fields[|fields| - 1];
      EmptyValuesAreIgnored(env, init);
      if f.value != "" {
        assert (WithValues(init) + [f])[..|WithValues(init)|] == WithValues(init);
      }
    }
  }

  /** The fields whose value is not empty, in order. */
  function WithValues(fields: seq<Field>): (r: seq<Field>)
    ensures |r| <= |fields|
    ensures forall k :: 0 <= k < |r| ==> r[k].value != "" && r[k] in fields
  {
    if |fields| == 0 then []
    else
      var init := WithValues(fields[..|fields| - 1]);
      var f := fields[|fields| - 1];
      if f.value != "" then init + [f] else init
  }

  /** Later fields never rewrite earlier results: the properties of a prefix
      are a prefix of the properties of the whole, and key attributes once set
      keep their values. */
  lemma {:induction false} NoOverwrite(env: Env, a: seq<Field>, b: seq<Field>)
    ensures Classify(env, a).props <= Classify(env, a + b).props
    ensures forall t :: t in Classify(env, a).keys ==>
      t in Classify(env, a + b).keys && Classify(env, a + b).keys[t] == Classify(env, a).keys[t]
  {
    if |b| > 0 {
      var init := b[..|b| - 1];
      assert (a + b)[..|a + b| - 1] == a + init;
      NoOverwrite(env, a, init);
      StepKeepsValid(env, Classify(env, a + init), b[|b| - 1]);
    } else {
      assert a + b == a;
    }
  }

  /** The fate of one more demoted field: if its new label is free it is
      appended with its sanitised value, otherwise it is dropped and nothing
      changes. A label that is free, non-empty, not reserved and not a key
      category is kept verbatim. */
  lemma DemotedFieldFate(env: Env, fields: seq<Field>, f: Field)
    requires f.value != ""
    requires f.kind !in KeyCategories || f.kind in Classify(env, fields).keys
    ensures var before := Classify(env, fields);
      var after := Classify(env, fields + [f]);
      var name := Relabel(env, before.props, f);
      && after.keys == before.keys
      && (name in Labels(before.props) ==> after == before)
      && (name !in Labels(before.props) ==>
            after.props == before.props + [Property(name, StripControl(env.isControl, f.value))])
      && (&& f.kind != TotpType && f.name != "" && f.name !in Labels(before.props)
          && !NeedsReservedSuffix(env, f.name) && env.lower(f.name) !in KeyCategories ==>
            after.props == before.props + [Property(f.name, StripControl(env.isControl, f.value))])
  {
    assert (fields + [f])[..|fields|] == fields;
  }
}

=== FILE: optional.dfy ===
/** A value that may be missing: a JSON key that is absent, a dictionary
    lookup that fails, or a pykeepass argument passed as `None`. */
module Optional {

  datatype Option<+T> = None | Some(value: T) {

    /** The wrapped value, or `default` when there is none. */
    function GetOr(default: T): T {
      match this
      case Some(v) => v
      case None => default
    }
  }
}

=== FILE: reserved.dfy ===
/** `is_reserved_word`: a case-insensitive lookup in pykeepass's
    reserved-key list that answers with the list's own spelling. */
module ReservedWords {
  import opened Optional
  import opened Config

  /** The first reserved key whose lower-case form equals `lower(key)`, or None. */
  function FindReserved(lower: string -> string, reserved: seq<string>, key: string): (r: Option<string>)
    ensures r.Some? <==> exists i :: 0 <= i < |reserved| && lower(reserved[i]) == lower(key)
    ensures r.Some? ==> exists i :: && 0 <= i < |reserved|
                                   && reserved[i] == r.value
                                   && lower(reserved[i]) == lower(key)
                                   && forall j :: 0 <= j < i ==> lower(reserved[j]) != lower(key)
  {
    if |reserved| == 0 then None
    else if lower(reserved[0]) == lower(key) then Some(reserved[0])
    else
      var r := FindReserved(lower, reserved[1..], key);
      assert forall i :: 1 <= i < |reserved| ==> reserved[i] == reserved[1..][i - 1];
      r
  }

  /** `is_reserved_word(key)` against the environment's reserved-key list. */
  function IsReservedWord(env: Env, key: string): Option<string> {
    FindReserved(env.lower, env.reservedKeys, key)
  }

  /** Python truthiness of the lookup's answer: None and "" are both false. */
  predicate IsTruthy(o: Option<string>) {
    o.Some? && o.value != ""
  }

  /** A key whose lower-case form has an underscore is never reserved, when no
      reserved key lowers to a string with one. */
  lemma UnderscoredKeyIsNotReserved(env: Env, key: string)
    requires ReservedKeysHaveNoUnderscore(env)
    requires '_' in env.lower(key)
    ensures IsReservedWord(env, key) == None
  {
  }
}

=== FILE: sanitize.dfy ===
/** `remove_control_characters`: drop every character whose Unicode
    general category is one of the "C" categories. */
module Sanitize {
  import opened Strings

  /** The characters of `s` that are not control characters, in order. */
  function StripControl(isControl: char -> bool, s: string): (r: string)
    ensures forall i :: 0 <= i < |r| ==> !isControl(r[i])
    ensures IsSubsequence(r, s)
    ensures forall c :: c in s && !isControl(c) ==> multiset(r)[c] == multiset(s)[c]
    ensures multiset(r) <= multiset(s)
  {
    if |s| == 0 then ""
    else
      assert s == [s[0]] + s[1..];
      assert multiset(s) == multiset{s[0]} + multiset(s[1..]);
      var rest := StripControl(isControl, s[1..]);
      if isControl(s[0]) then rest
      else
        assert ([s[0]] + rest)[1..] == rest;
        assert multiset([s[0]] + rest) == multiset{s[0]} + multiset(rest);
        [s[0]] + rest
  }

  /** A string with no control character is left as it is. */
  lemma {:induction false} StripControlKeepsClean(isControl: char -> bool, s: string)
    requires forall i :: 0 <= i < |s| ==> !isControl(s[i])
    ensures StripControl(isControl, s) == s
  {
    if |s| > 0 {
      StripControlKeepsClean(isControl, s[1..]);
      assert [s[0]] + s[1..] == s;
    }
  }

  /** Stripping twice is the same as stripping once. */
  lemma StripControlIdempotent(isControl: char -> bool, s: string)
    ensures StripControl(isControl, StripControl(isControl, s)) == StripControl(isControl, s)
  {
    StripControlKeepsClean(isControl, StripControl(isControl, s));
  }
}

=== FILE: scenarios.dfy ===
/** Worked examples of the conversion rules on concrete items. */
module Scenarios {
  import opened Optional
  import opened Config
  import opened Export
  import opened Category
  import opened FieldClassifier
  import opened PropertyWrites
  import opened Titles
  import opened Sanitize
  import opened ReservedWords
  import opened Driver
  import opened Strings

  /** Two password fields with values: the first fills the password
      attribute, the second is kept as a custom property under its own label
      (one that is free, unreserved and not a key category). */
  lemma SecondPasswordBecomesProperty(env: Env, first: Field, second: Field)
    requires first.kind == "password" && second.kind == "password"
    requires first.value != "" && second.value != ""
    requires second.name != "" && !NeedsReservedSuffix(env, second.name)
    requires env.lower(second.name) !in KeyCategories
    ensures var c := Classify(env, [first, second]);
      && c.keys == map["password" := first.value]
      && c.props == [Property(second.name, StripControl(env.isControl, second.value))]
  {
    ClassifyPair(env, first, second);
    assert "password" in KeyCategories;
    assert BaseLabel(second) == second.name;
    RelabelRules(env, [], second);
  }

  /** A field with an empty label is stored under the synthesised label. */
  lemma EmptyLabelIsSynthesised(env: Env, value: string)
    requires LowerKeepsUnderscore(env.lower)
    requires value != ""
    ensures Classify(env, [Field("abc123", "", "text", value)]).props
      == [Property("empty_enpass_label_abc123", StripControl(env.isControl, value))]
  {
    var f := Field("abc123", "", "text", value);
    assert [f][..0] == [];
    assert f.kind !in KeyCategories;
    assert BaseLabel(f) == "";
    RelabelRules(env, [], f);
    assert EmptyLabelPrefix + "abc123" == "empty_enpass_label_abc123";
  }

  /** A template type "<category>.default" goes straight into the category group. */
  lemma DefaultTemplateType(env: Env, category: string)
    requires '.' !in category
    requires !env.isUuid(category + ".default")
    ensures ResolveCategory(env, category + ".default") == Placement(category, "default", true)
    ensures GroupPath(ResolveCategory(env, category + ".default")) == [category]
  {
    var tt := category + ".default";
    assert tt == category + "." + "default" + "";
    assert EndsWith(tt, DefaultSuffix) by {
      assert tt[|tt| - |DefaultSuffix|..] == DefaultSuffix;
    }
    ResolveCategoryOfPieces(env, category, "default", "");
  }

  /** A template type the UUID parser accepts falls back to Miscellaneous. */
  lemma UuidTemplateType(env: Env, templateType: string)
    requires env.isUuid(templateType)
    ensures GroupPath(ResolveCategory(env, templateType)) == [Miscellaneous, ""]
  {
  }

  /** Two items with the same title and template type: the first keeps its
      title and the second gets its uuid appended. */
  lemma SecondSameTitleGetsUuid(env: Env, dir: map<string, string>, store: Store, a: Item, b: Item)
    requires a.title != "" && b.title == a.title && b.templateType == a.templateType
    requires var g := GroupPath(ResolveCategory(env, a.templateType));
      a.title !in TitlesIn(store, g) && Suffixed(a.title, b.uuid) !in TitlesIn(store, g)
    ensures var (o1, s1) := ConvertItem(env, dir, store, a);
      var (o2, s2) := ConvertItem(env, dir, s1, b);
      o1.Created? && o1.entry.title == a.title && o2.Created? && o2.entry.title == Suffixed(a.title, b.uuid)
  {
    var g := GroupPath(ResolveCategory(env, a.templateType));
    var (o1, s1) := ConvertItem(env, dir, store, a);
    assert TitlesIn(s1, g) == TitlesIn(store, g) + {a.title};
    assert Suffixed(a.title, b.uuid) != a.title by {
      assert |Suffixed(a.title, b.uuid)| > |a.title|;
    }
  }

  /** A TOTP field is stored as "otp" whatever its label, and written through
      the OTP attribute when the reserved-key lookup answers "otp" for "otp"
      (as it does for pykeepass's list, where "otp" is the only key lowering
      to "otp") and "otp" does not lower to a key category. */
  lemma TotpGoesToOtpAttribute(env: Env, name: string, value: string)
    requires IsReservedWord(env, OtpLabel) == Some(OtpLabel)
    requires env.lower(OtpLabel) !in KeyCategories
    requires value != ""
    ensures var c := Classify(env, [Field("9", name, "totp", value)]);
      && c.props == [Property("otp", StripControl(env.isControl, value))]
      && PlanWrites(env, c.props) == [Attribute("otp", StripControl(env.isControl, value))]
  {
    var f := Field("9", name, "totp", value);
    assert [f][..0] == [];
    assert f.kind !in KeyCategories;
    assert !NeedsReservedSuffix(env, OtpLabel);
  }

  /** Two password fields with values, the second labelled with a key category
      or a reserved name such as "Password": the second becomes the only
      property, under its label with `_<uid>` appended. */
  lemma SecondPasswordNamedLikeAKeyIsSuffixed(env: Env, first: Field, second: Field)
    requires WellBehaved(env)
    requires first.kind == "password" && second.kind == "password"
    requires first.value != "" && second.value != ""
    requires second.name != ""
    requires env.lower(second.name) in KeyCategories || NeedsReservedSuffix(env, second.name)
    ensures var c := Classify(env, [first, second]);
      && c.keys == map["password" := first.value]
      && c.props == [Property(Suffixed(second.name, second.uid), StripControl(env.isControl, second.value))]
  {
    ClassifyPair(env, first, second);
    assert "password" in KeyCategories;
    assert BaseLabel(second) == second.name;
    RelabelRules(env, [], second);
  }
}

=== FILE: strings.dfy ===
/** String helpers with the meaning of the Python built-ins the converter
    uses: `str.endswith`, `str.split(sep)` and its inverse `sep.join`. */
module Strings {

  /** `s.endswith(suffix)`. */
  predicate EndsWith(s: string, suffix: string) {
    |suffix| <= |s| && s[|s| - |suffix|..] == suffix
  }

  /** `a` can be obtained from `b` by deleting characters. */
  ghost predicate IsSubsequence<T>(a: seq<T>, b: seq<T>)
    decreases |b|
  {
    || |a| == 0
    || (&& |b| > 0
        && ((a[0] == b[0] && IsSubsequence(a[1..], b[1..])) || IsSubsequence(a, b[1..])))
  }

  /** `sep.join(parts)` for a one-character separator. */
  function Join(parts: seq<string>, sep: char): (s: string)
    requires |parts| >= 1
    ensures parts[0] <= s
  {
    if |parts| == 1 then parts[0] else parts[0] + [sep] + Join(parts[1..], sep)
  }

  /** `s.split(sep)`: the maximal separator-free pieces of `s`, in order.
      Python returns one piece per separator plus one, empty pieces included. */
  function Split(s: string, sep: char): (parts: seq<string>)
    ensures |parts| >= 1
    ensures |parts| >= 2 <==> sep in s
    ensures forall i :: 0 <= i < |parts| ==> sep !in parts[i]
    ensures Join(parts, sep) == s
  {
    if |s| == 0 then [""]
    else
      var rest := Split(s[1..], sep);
      if s[0] == sep then
        assert s == [sep] + s[1..];
        [""] + rest
      else
        var parts := [[s[0]] + rest[0]] + rest[1..];
        JoinConsFirst(s[0], rest, sep);
        assert parts[1..] == rest[1..];
        assert s == [s[0]] + s[1..];
        parts
  }

  /** Prepending a character to the first piece prepends it to the joined string. */
  lemma JoinConsFirst(c: char, parts: seq<string>, sep: char)
    requires |parts| >= 1
    ensures Join([[c] + parts[0]] + parts[1..], sep) == [c] + Join(parts, sep)
  {
    var q := [[c] + parts[0]] + parts[1..];
    if |parts| > 1 {
      assert q[1..] == parts[1..];
    }
  }

  /** Splitting a string made by joining separator-free pieces gives the pieces back. */
  lemma {:induction false} SplitJoin(parts: seq<string>, sep: char)
    requires |parts| >= 1
    requires forall i :: 0 <= i < |parts| ==> sep !in parts[i]
    ensures Split(Join(parts, sep), sep) == parts
  {
    if |parts| == 1 {
      SplitPiece(parts[0], sep);
    } else {
      SplitJoin(parts[1..], sep);
      SplitPieceThenSep(parts[0], Join(parts[1..], sep), sep);
      assert [parts[0]] + parts[1..] == parts;
    }
  }

  /** A separator-free string splits into itself. */
  lemma {:induction false} SplitPiece(p: string, sep: char)
    requires sep !in p
    ensures Split(p, sep) == [p]
  {
    if |p| > 0 {
      SplitPiece(p[1..], sep);
      assert [p[0]] + p[1..] == p;
    }
  }

  /** Splitting `p + sep + t`, with `p` separator-free, yields `p` then the pieces of `t`. */
  lemma {:induction false} SplitPieceThenSep(p: string, t: string, sep: char)
    requires sep !in p
    ensures Split(p + [sep] + t, sep) == [p] + Split(t, sep)
  {
    var s := p + [sep] + t;
    if |p| == 0 {
      assert s[1..] == t;
    } else {
      assert s[1..] == p[1..] + [sep] + t;
      SplitPieceThenSep(p[1..], t, sep);
      assert [p[0]] + p[1..] == p;
    }
  }

  /** A joined string of two or more pieces starts with the first piece, the
      separator and the second piece, followed by its end or another separator. */
  lemma JoinFirstTwo(parts: seq<string>, sep: char)
    requires |parts| >= 2
    ensures parts[0] + [sep] + parts[1] <= Join(parts, sep)
    ensures var n := |parts[0]| + 1 + |parts[1]|;
            n == |Join(parts, sep)| || Join(parts, sep)[n] == sep
  {
    var tail := Join(parts[1..], sep);
    assert Join(parts, sep) == parts[0] + [sep] + tail;
    if |parts| > 2 {
      assert tail == parts[1] + [sep] + Join(parts[2..], sep) by {
        assert parts[1..][1..] == parts[2..];
      }
    }
  }

  /** A separator-free prefix of `t` that reaches the end of `t` or a
      separator is the first piece of `t`, so there is only one. */
  lemma PieceUnique(a: string, b: string, t: string, sep: char)
    requires sep !in a && sep !in b
    requires a <= t && b <= t
    requires |a| == |t| || t[|a|] == sep
    requires |b| == |t| || t[|b|] == sep
    ensures a == b
  {
    assert forall k :: 0 <= k < |a| ==> t[k] == a[k] != sep;
    assert forall k :: 0 <= k < |b| ==> t[k] == b[k] != sep;
  }

  /** `f"{name}_{uid}"`: the suffix used to make a label or a title unique. */
  function Suffixed(name: string, uid: string): string {
    name + "_" + uid
  }

  /** A suffixed name has an underscore right after the original name. */
  lemma SuffixedHasUnderscore(name: string, uid: string)
    ensures '_' in Suffixed(name, uid)
    ensures name + "_" <= Suffixed(name, uid)
  {
    assert Suffixed(name, uid)[|name|] == '_';
  }
}

=== FILE: tags.dfy ===
/** The tag directory (folder uuid -> human-readable name) built once from
    the export's folders, and the per-item tag lookup. Enpass stores tags
    and folders in the same list; only top-level, non-root nodes are tags. */
module Tags {
  import opened Optional
  import opened Export

  const RootTitle: string := "Root"

  /** A folder node counts as a tag: it has a uuid and a title, the title is
      not "Root", and its parent uuid is missing or empty. */
  predicate IsTag(f: Folder) {
    && f.uuid.Some?
    && f.title.Some?
    && f.title.value != RootTitle
    && f.parentUuid.GetOr("") == ""
  }

  /** The tag directory after reading `folders` in order; a later tag with the
      same uuid replaces an earlier one, as a dictionary assignment does. */
  function TagDirectory(folders: seq<Folder>): (dir: map<string, string>)
    ensures forall u :: u in dir ==> u in TagUuids(folders)
  {
    if |folders| == 0 then map[]
    else
      var last := folders[|folders| - 1];
      var dir := TagDirectory(folders[..|folders| - 1]);
      if IsTag(last) then dir[last.uuid.value := last.title.value] else dir
  }

  /** The uuids of the tag nodes among `folders`. */
  ghost function TagUuids(folders: seq<Folder>): set<string> {
    set i | 0 <= i < |folders| && IsTag(folders[i]) :: folders[i].uuid.value
  }

  /** `folders[i]` is the last tag node carrying uuid `u`. */
  ghost predicate IsLastTagWith(folders: seq<Folder>, i: int, u: string) {
    && 0 <= i < |folders| && IsTag(folders[i]) && folders[i].uuid == Some(u)
    && forall j :: i < j < |folders| ==> !(IsTag(folders[j]) && folders[j].uuid == Some(u))
  }

  /** The tag uuids of a list grow by the last node's uuid when it is a tag. */
  lemma TagUuidsAppend(folders: seq<Folder>, f: Folder)
    ensures TagUuids(folders + [f]) == TagUuids(folders) + (if IsTag(f) then {f.uuid.value} else {})
  {
    var all := folders + [f];
    forall u | u in TagUuids(all)
      ensures u in TagUuids(folders) + (if IsTag(f) then {f.uuid.value} else {})
    {
      var i :| 0 <= i < |all| && IsTag(all[i]) && all[i].uuid.value == u;
      if i < |folders| { assert all[i] == folders[i]; }
    }
    forall u | u in TagUuids(folders) ensures u in TagUuids(all) {
      var i :| 0 <= i < |folders| && IsTag(folders[i]) && folders[i].uuid.value == u;
      assert all[i] == folders[i];
    }
    if IsTag(f) {
      assert all[|folders|] == f;
    }
  }

  /** The directory holds exactly the uuids of tag nodes, and each maps to the
      title of the last tag node with that uuid. */
  lemma {:induction false} TagDirectoryContents(folders: seq<Folder>)
    ensures TagDirectory(folders).Keys == TagUuids(folders)
    ensures forall u :: u in TagDirectory(folders) ==>
      exists i :: IsLastTagWith(folders, i, u) && TagDirectory(folders)[u] == folders[i].title.value
  {
    if |folders| > 0 {
      var n := |folders| - 1;
      var init := folders[..n];
      var last := folders[n];
      assert init + [last] == folders;
      TagDirectoryContents(init);
      TagUuidsAppend(init, last);
      var dir := TagDirectory(folders);
      var prev := TagDirectory(init);
      forall u | u in dir
        ensures exists i :: IsLastTagWith(folders, i, u) && dir[u] == folders[i].title.value
      {
        if IsTag(last) && last.uuid == Some(u) {
          assert IsLastTagWith(folders, n, u);
        } else {
          var i :| IsLastTagWith(init, i, u) && prev[u] == init[i].title.value;
          assert init[i] == folders[i];
          assert IsLastTagWith(folders, i, u);
        }
      }
    }
  }

  /** The names of the item's folder references that are tags, in the item's
      order; references to unknown uuids are skipped. */
  function ResolveTags(dir: map<string, string>, refs: seq<string>): (tags: seq<string>)
    ensures |tags| <= |refs|
    ensures forall k :: 0 <= k < |tags| ==> tags[k] in dir.Values
  {
    if |refs| == 0 then []
    else
      var rest := ResolveTags(dir, refs[1..]);
      if refs[0] in dir then [dir[refs[0]]] + rest else rest
  }

  /** Every known reference contributes its name, and nothing else is produced. */
  lemma {:induction false} ResolveTagsContents(dir: map<string, string>, refs: seq<string>)
    ensures forall i :: 0 <= i < |refs| && refs[i] in dir ==> dir[refs[i]] in ResolveTags(dir, refs)
    ensures forall t :: t in ResolveTags(dir, refs) <==> exists i :: 0 <= i < |refs| && refs[i] in dir && t == dir[refs[i]]
  {
    if |refs| > 0 {
      ResolveTagsContents(dir, refs[1..]);
      assert forall i :: 1 <= i < |refs| ==> refs[i] == refs[1..][i - 1];
      forall t | t in ResolveTags(dir, refs[1..])
        ensures exists i :: 0 <= i < |refs| && refs[i] in dir && t == dir[refs[i]]
      {
        var i :| 0 <= i < |refs[1..]| && refs[1..][i] in dir && t == dir[refs[1..][i]];
        assert refs[i + 1] == refs[1..][i];
      }
    }
  }

  /** Resolving a concatenation resolves each part in turn. */
  lemma {:induction false} ResolveTagsAppend(dir: map<string, string>, a: seq<string>, b: seq<string>)
    ensures ResolveTags(dir, a + b) == ResolveTags(dir, a) + ResolveTags(dir, b)
  {
    if |a| > 0 {
      assert (a + b)[0] == a[0];
      assert (a + b)[1..] == a[1..] + b;
      ResolveTagsAppend(dir, a[1..], b);
    } else {
      assert a + b == b;
    }
  }

  /** When every reference is known, tag k is exactly the name of reference k. */
  lemma {:induction false} ResolveTagsAllKnown(dir: map<string, string>, refs: seq<string>)
    requires forall i :: 0 <= i < |refs| ==> refs[i] in dir
    ensures |ResolveTags(dir, refs)| == |refs|
    ensures forall k :: 0 <= k < |refs| ==> ResolveTags(dir, refs)[k] == dir[refs[k]]
  {
    if |refs| > 0 {
      ResolveTagsAllKnown(dir, refs[1..]);
    }
  }
}

=== FILE: titles.dfy ===
/** The KeePass side of the run, reduced to what decides the outcome: which
    groups exist and which entry titles each already holds. Group creation
    and the two-step title check of the item loop work on this value. */
module Titles {
  import opened Strings
  import opened Category

  /** Group path (category, then subcategory when there is one) -> titles present. */
  type Store = map<seq<string>, set<string>>

  function TitlesIn(store: Store, group: seq<string>): set<string> {
    if group in store then store[group] else {}
  }

  /** `find_groups` then `add_group` for the category group and, unless the
      template type is a default one, its subcategory group. Existing groups
      keep their titles; new groups start empty. */
  function EnsureGroups(store: Store, p: Placement): (r: Store)
    ensures [p.category] in r && GroupPath(p) in r
    ensures r.Keys == store.Keys + {[p.category], GroupPath(p)}
    ensures forall g :: TitlesIn(r, g) == TitlesIn(store, g)
  {
    var withCategory := if [p.category] in store then store else store[[p.category] := {}];
    var path := GroupPath(p);
    if path in withCategory then withCategory else withCategory[path := {}]
  }

  /** What happened to an item's title. */
  datatype TitleDecision =
    | Untitled                 // empty title: no entry is created
    | Duplicate(title: string) // still taken after the uuid suffix: skipped
    | Placed(title: string)    // the entry is created under this title

  /** The title an item gets in `group`: an empty title is skipped; a title
      already present gets `_<uuid>` appended once; if that is present too the
      item is skipped, otherwise the title is recorded in the group. */
  function AssignTitle(store: Store, group: seq<string>, title: string, uuid: string): (r: (TitleDecision, Store))
    ensures title == "" <==> r.0 == Untitled
    ensures !r.0.Placed? ==> r.1 == store
    ensures r.0.Duplicate? ==> r.0.title == Suffixed(title, uuid) && title in TitlesIn(store, group) && r.0.title in TitlesIn(store, group)
    ensures r.0.Placed? ==>
      && r.0.title !in TitlesIn(store, group)
      && r.0.title == (if title in TitlesIn(store, group) then Suffixed(title, uuid) else title)
      && r.1 == store[group := TitlesIn(store, group) + {r.0.title}]
  {
    if title == "" then (Untitled, store)
    else
      var present := TitlesIn(store, group);
      var candidate := if title in present then Suffixed(title, uuid) else title;
      if candidate in present then (Duplicate(candidate), store)
      else (Placed(candidate), store[group := present + {candidate}])
  }

  /** Assigning a title only ever adds titles, and only the placed one. */
  lemma AssignTitleGrows(store: Store, group: seq<string>, title: string, uuid: string)
    ensures var (d, r) := AssignTitle(store, group, title, uuid);
      forall g :: TitlesIn(r, g) == TitlesIn(store, g) + (if d.Placed? && g == group then {d.title} else {})
  {
  }
}

=== FILE: writes.dfy ===
/** How `value_fields` reaches the new KeePass entry, in insertion order:
    keys that are not reserved go through `set_custom_property`, reserved
    keys with their own attribute ("otp") through that attribute, and any
    other reserved key is not written. */
module PropertyWrites {
  import opened Optional
  import opened Config
  import opened ReservedWords
  import opened FieldClassifier

  datatype PropertyWrite =
    | CustomProperty(key: string, value: string)
    | Attribute(name: string, value: string)

  /** The write, if any, for one property. */
  function WriteFor(env: Env, p: Property): (w: Option<PropertyWrite>)
    ensures w.None? <==> NeedsReservedSuffix(env, p.key)
    ensures w.Some? ==> w.value.value == p.value
    ensures w.Some? && w.value.CustomProperty? ==> w.value.key == p.key
  {
    var rk := IsReservedWord(env, p.key);
    if !IsTruthy(rk) then Some(CustomProperty(p.key, p.value))
    else if rk.value in SpecialKeys then Some(Attribute(rk.value, p.value))
    else None
  }

  /** The writes for all properties, in the dictionary's order. */
  function PlanWrites(env: Env, props: seq<Property>): (ws: seq<PropertyWrite>)
    ensures |ws| <= |props|
    ensures forall k :: 0 <= k < |ws| ==>
      || (ws[k].CustomProperty? && !IsTruthy(IsReservedWord(env, ws[k].key)))
      || (ws[k].Attribute? && ws[k].name in SpecialKeys)
  {
    if |props| == 0 then []
    else
      match WriteFor(env, props[0])
      case Some(w) => [w] + PlanWrites(env, props[1..])
      case None => PlanWrites(env, props[1..])
  }

  /** `ws` writes every property of `props`, in order, with its own value:
      under its own key as a custom property, or through the special
      attribute whose name lowers like its key. */
  predicate WritesAll(env: Env, props: seq<Property>, ws: seq<PropertyWrite>) {
    && |ws| == |props|
    && forall k :: 0 <= k < |props| ==>
      && ws[k].value == props[k].value
      && (ws[k].CustomProperty? ==> ws[k].key == props[k].key)
      && (ws[k].Attribute? ==> ws[k].name in SpecialKeys && env.lower(ws[k].name) == env.lower(props[k].key))
  }

  /** When no property key needs the reserved suffix, every property is
      written, in order, with its own value. */
  lemma {:induction false} EveryPropertyIsWritten(env: Env, props: seq<Property>)
    requires forall k :: 0 <= k < |props| ==> !NeedsReservedSuffix(env, props[k].key)
    ensures WritesAll(env, props, PlanWrites(env, props))
  {
    if |props| > 0 {
      EveryPropertyIsWritten(env, props[1..]);
      assert forall k :: 1 <= k < |props| ==> props[1..][k - 1] == props[k];
    }
  }

  /** Properties are planned one at a time: the writes for a concatenation
      are the writes for its parts, in order. */
  lemma {:induction false} PlanWritesAppend(env: Env, a: seq<Property>, b: seq<Property>)
    ensures PlanWrites(env, a + b) == PlanWrites(env, a) + PlanWrites(env, b)
  {
    if |a| > 0 {
      assert (a + b)[1..] == a[1..] + b;
      PlanWritesAppend(env, a[1..], b);
    } else {
      assert a + b == b;
    }
  }

  /** The writes for a single property: none when its key is reserved and not
      special; otherwise one write carrying its value, a custom property under
      its own key when the key is not reserved, else the attribute named by
      the reserved key it matches. */
  lemma PlanWriteOfOne(env: Env, p: Property)
    ensures var ws := PlanWrites(env, [p]);
      var rk := IsReservedWord(env, p.key);
      && (ws == [] <==> NeedsReservedSuffix(env, p.key))
      && (!IsTruthy(rk) ==> ws == [CustomProperty(p.key, p.value)])
      && (IsTruthy(rk) && rk.value in SpecialKeys ==> ws == [Attribute(rk.value, p.value)])
  {
    assert [p][1..] == [];
  }

  /** A property whose key is reserved and not special is skipped: the other
      properties are written exactly as if it were absent. */
  lemma ReservedPropertyIsSkipped(env: Env, a: seq<Property>, p: Property, b: seq<Property>)
    requires NeedsReservedSuffix(env, p.key)
    ensures PlanWrites(env, a + [p] + b) == PlanWrites(env, a) + PlanWrites(env, b)
  {
    PlanWritesAppend(env, a + [p], b);
    PlanWritesAppend(env, a, [p]);
    PlanWriteOfOne(env, p);
  }
}
